=== FILE: README.md ===
# Citation footnotes of the knowledge-base chatbot, in Dafny

This project models the post-processing core of the chatbot's two request
handlers: the AWS Lambda function (`lambda_function.py`) and the Flask
backend (`chatbot_backend.py`). Both send the user's question to a hosted
retrieve-and-generate service. They then turn the service's reply into an
answer text with a numbered "Sources" footnote section. The model covers three
pure steps that follow the remote call:

- **Key-phrase extraction** (`extract_key_phrase`, module `KeyPhrase`). A short
  excerpt of a retrieved passage is chosen by the first rule that applies. Rule 1
  is a heading line: trimmed, starting with `#`, longer than three characters.
  It yields the line with every `#` removed, then trimmed. Rule 2 is one of the
  first three `". "`-separated sentences whose trimmed length lies strictly
  between 20 and 100. Rule 3 is the trimmed text. Every rule cuts the result to
  50 characters, and empty text gives the empty string. The function is the
  same in both files and is modelled once.
- **Citation-to-source extraction** (the reference loop of
  `query_knowledge_base`, module `Citations`). It walks every reference of every
  citation, in order, with a counter that starts at 1. Each reference with a
  non-empty URI becomes a source `{number, title, uri, snippet}`. The URI is
  read from `webLocation.url`, or from `s3Location.uri` when there is no
  `webLocation`. References without a URI are skipped and take no number.
  Duplicate URIs are not merged. The two files differ in one place only, the
  title rule (`TitleRule`). The Lambda takes a truthy metadata title, otherwise
  the last `/`-segment of the URI. The backend always takes the last segment.
- **Answer composition** (module `Compose`, and the handlers in `Reply`,
  `LambdaFunction`, `ChatbotBackend`). When the source list is non-empty, the
  answer is followed by `"\n\n**Sources:**\n"` and one `"[n] title\n"` line
  per source. Otherwise the answer is returned unchanged.

The remote call is an input value. `Query.Response` is either
`Answered(outputText, citations)`, where `citations` is `None` when the reply
has no `citations` key, or `Raised(message)` for an exception with
`str(e) == message`. The Python `except Exception` branch turns any exception
into the answer `"I'm having trouble accessing the knowledge base right now.
Error: " + str(e)` with no sources. Such an exception is either `Raised` or a
`KeyError` met inside the loop. The loop raises `KeyError` when a
`webLocation` has no `url` key, or when there is no `webLocation` and the
`s3Location` has no `uri` key; an `s3Location` next to a `webLocation` is
never read. The model keeps that path, and the error text is `'url'` or
`'uri'` in quotes.

The Python string operations the code relies on are written out in module
`PyStr`: `strip`, `split`, `replace(c, '')` and `split('/')[-1]`, with
the helpers `Find`, which defines `Split`, and `Join`, which states its
round trip (the code itself calls neither `find` nor `join`). `IsWhitespace` is CPython's `str.isspace` set, 29 code
points. Modules `Wrappers` and `Seqs` hold `Option`/`Result` and the
sequence helpers: slicing `s[:n]`, first-match search and filtering. Module
`Decimal` renders `f"{n}"` and reads it back.

The code does no URL normalisation, compares no titles and merges no
duplicates: every cited reference is its own source, an empty passage gives
the key phrase `""`, and a footnote is `[n] title`.

## Model

| member | source | states |
|---|---|---|
| `PyStr.Strip` | lambda_function.py:12 | `strip()` returns the slice of its input left after removing the whitespace runs at both ends. The result is empty or starts and ends with non-whitespace, and everything cut away is whitespace. |
| `PyStr.SplitJoin` | lambda_function.py:10 | Joining the pieces of `text.split(sep)` with `sep` gives back `text`, so splitting loses and invents nothing. |
| `PyStr.SplitPiecesHaveNoSeparator` | lambda_function.py:17 | No piece of `text.split(sep)` contains `sep`, for instance no sentence contains `". "`. |
| `PyStr.SplitLastPiece` | lambda_function.py:57 | The last piece of a split is a suffix of the input. Unless it is the whole input, the separator stands right before it. |
| `PyStr.LastSegment` | lambda_function.py:57 | `uri.split('/')[-1]` is a suffix of the URI that holds no `/`. Unless it is the whole URI, it is preceded by `/`. |
| `PyStr.RemoveAll` | lambda_function.py:14 | `replace('#', '')` leaves no `#`, keeps every other character with its number of occurrences, and is the in-order filter of the characters other than `#`. |
| `PyStr.RemoveAllAppend` | lambda_function.py:14 | Removing from a concatenation concatenates the removals, so what remains keeps its order. |
| `PyStr.SplitOnCharAfter` | chatbot_backend.py:15 | Splitting on a one-character separator turns a leading separator-free part into the first piece and continues with the rest. |
| `Seqs.Prefix` | lambda_function.py:14 | `s[:n]` is the first `n` elements of `s`, or all of `s` when it is shorter. |
| `Seqs.FirstWhere` | lambda_function.py:11-14 | The first-match loop returns the least index whose element satisfies the test. It returns nothing exactly when no element does. |
| `KeyPhrase.ExtractKeyPhrase` | chatbot_backend.py:9-28 | The key phrase is never longer than 50 characters, and the empty text gives the empty phrase. |
| `KeyPhrase.LeadingSentences` | lambda_function.py:17-18 | The sentences looked at are exactly the first three pieces of `text.split('. ')`, or all of them when there are fewer. |
| `KeyPhrase.HeadingPhrase` | lambda_function.py:14 | A heading's phrase is at most 50 characters and holds no `#`. |
| `KeyPhrase.HeadingRule` | lambda_function.py:9-14 | If line `i` is the first heading line, the phrase is that stripped line with all `#` removed, stripped again and cut to 50. It holds no `#`. |
| `KeyPhrase.SentenceRule` | lambda_function.py:16-20 | With no heading, if sentence `j` (`j < 3`) is the first sentence of mid length, the phrase is that sentence stripped and cut to 50. |
| `KeyPhrase.FallbackRule` | lambda_function.py:22-23 | With no heading and no mid-length sentence among the first three, the phrase is the first 50 characters of the stripped text, whatever later sentences hold. |
| `KeyPhrase.MarkersOnlyHeading` | lambda_function.py:13-14 | The heading `"####"` yields the empty phrase. |
| `Decimal.NatToString` | lambda_function.py:124 | `f"{n}"` is a non-empty string of decimal digits with no leading zero. |
| `Decimal.ParseNatToString` | lambda_function.py:124 | Reading the digits of `f"{n}"` gives `n` back. |
| `Citations.LinkOf` | lambda_function.py:55-60 | A `KeyError` names `url` when a `webLocation` is present and `uri` otherwise. There is no URI exactly when neither location is present. |
| `Citations.LinkChoice` | lambda_function.py:55-60 | With a `webLocation`, its `url` is the URI verbatim, or `KeyError('url')` when the key is missing. Without one, an `s3Location`'s `uri` is the URI verbatim, or `KeyError('uri')` when missing. |
| `Citations.WebLocationShadowsS3` | lambda_function.py:55-59 | Whenever a `webLocation` is present, the `s3Location` is never read: the outcome is the same whatever it holds, and it raises exactly when `url` is missing. |
| `Citations.TitleExpression` | lambda_function.py:57-60 | The expression parses as `(meta or last) if uri else fallback`: an empty URI gives the branch's fallback title even when the metadata title is truthy, and a non-empty URI gives the rule's title. |
| `Citations.DisplayTitle` | lambda_function.py:57 | The Lambda title is the metadata title when it is non-empty, otherwise the last URI segment. The backend title is the last URI segment. |
| `Citations.BackendTitleIgnoresMetadata` | chatbot_backend.py:68 | In the backend the title is the last URI segment, and two references that differ only in their metadata title get the same title. |
| `Citations.SourcesFrom` | lambda_function.py:46-73 | A successful loop emits no more sources than references. Each source carries the number `next + i` at position `i` and has a non-empty URI. |
| `Citations.ExtractSources` | chatbot_backend.py:57-85 | The nested loop over citations and references with its running counter computes exactly the recursive loop over the flattened reference list, starting at 1. |
| `Citations.SourcesFailOnFirstMissingKey` | lambda_function.py:56-59 | The loop raises exactly when some reference lacks its `url`/`uri` key. The error then names the key of the first such reference. |
| `Citations.FailsOnFirstMalformed` | lambda_function.py:48-59 | When some reference lacks its `url`/`uri` key, the loop ends with the `KeyError` of the first such reference, whatever comes after it. |
| `Citations.FailsAt` | lambda_function.py:48-59 | When every reference before reference `j` is well-formed and reference `j` lacks its key, the loop ends with reference `j`'s `KeyError`. |
| `Citations.SucceedsWithoutMalformed` | lambda_function.py:46-73 | When no reference lacks its key, the loop completes. |
| `Citations.SourcesAreNumbered` | lambda_function.py:46-73 | A successful loop's source list equals the independent recursive numbering of the references with a non-empty URI, in order, starting at the counter's value. |
| `Citations.NumberedAt` | lambda_function.py:67-73 | In that numbering, the source at position `i` is the `i`-th cited reference under number `next + i`. |
| `Citations.SourcesAreNumberedCitedReferences` | lambda_function.py:62-73 | A successful loop yields exactly the references with a non-empty URI, in citation-then-reference order, numbered consecutively. Each source has its URI verbatim, the title of its rule (never the `'Web Document'`/`'Document'` fallback) and the key phrase of its content. |
| `Citations.DuplicatesNotMerged` | chatbot_backend.py:73-85 | Two references with the same URI become two sources, numbered 1 and 2. |
| `Compose.FootnoteText` | lambda_function.py:124 | A footnote is `[`, the decimal digits of the number, `] `, then the title verbatim. |
| `Compose.FootnotesAppendOne` | lambda_function.py:123-124 | Appending a source to the list appends exactly its `[n] title` line to the footnote section. |
| `Compose.ComposeAnswer` | lambda_function.py:118-124 | The answer is always a prefix of the response. The response equals the answer exactly when there are no sources. Otherwise the `Sources` header follows the answer directly, and the rest is the footnote section. |
| `Compose.ComposeByLoop` | lambda_function.py:118-124 | The handlers' loop, which appends the header once and then one line per source with `+=`, builds exactly the composed response. |
| `Compose.ComposedFootnoteLines` | chatbot_backend.py:117-123 | After the header, when no title holds a line break, the response splits into one `[n] title` line per source, in order, so it has as many lines as there are sources. |
| `Compose.FootnotesSplitIntoLines` | chatbot_backend.py:120-123 | When no title holds a line break, the footnote section splits into exactly one `[n] title` line per source, in order, and nothing after the last break. |
| `Compose.FootnoteShowsNumber` | chatbot_backend.py:123 | A footnote opens with `[` followed by the digits of the source's number, and those digits read back as that number. |
| `Query.KeyErrorMessage` | lambda_function.py:82 | `str(KeyError(key))` is the key wrapped in single quotes. |
| `Query.Trouble` | lambda_function.py:80-84 | The `except` branch yields no sources and an answer made of the fixed apology followed by `str(e)` verbatim. |
| `Query.QueryKnowledgeBase` | lambda_function.py:25-84 | A raised call gives the error answer and no sources. No `citations` key gives the answer and no sources. Otherwise the result is either the `KeyError` answer of the first malformed reference, or the answer with the numbered sources of the cited references. |
| `Reply.Respond` | lambda_function.py:99-124 | An empty message is rejected with `No message provided`. A remote failure's error answer is passed through unchanged with no sources. Otherwise the sources are the numbered cited references and the response is the answer with their footnotes. |
| `LambdaFunction.LambdaHandler` | lambda_function.py:99-136 | The Lambda rejects an empty message. It passes a remote failure through with no sources, and the bare answer when there is no `citations` key. Otherwise it gives either the `KeyError` answer of the first malformed reference, or the numbered cited references with the answer plus their footnotes as the response. Each title is the reference's non-empty metadata title, otherwise the last segment of its URI. |
| `ChatbotBackend.Chat` | chatbot_backend.py:103-128 | The `/chat` route makes the same empty-message, failure, missing-`citations` and `KeyError` cases, and the same numbered sources and footnoted response, as the Lambda. Every title is the last segment of its URI and holds no `/`. |

## Left out

- The remote `retrieve_and_generate` call and its client setup (knowledge-base id, model ARN, region). It is a network service. Its outcome is the input `Query.Response`.
- The Flask app, CORS setup and `/test` route of the backend. Also the Lambda's OPTIONS preflight, `json.loads`/`json.dumps`, headers, status codes and the 500 branch for an unparsable body. These are HTTP plumbing. Only the empty-message rejection is kept, as `Reply.BadRequest`.
- The debug `print` calls in the backend, which are console output.
- The chat widget script (DOM, `fetch`) and the knowledge-base sync Lambda, a single remote ingestion trigger. Both are outside the core.
- Field values of the wrong type in the service reply, such as a non-string title or a `location` entry that is not a dictionary. The model's datatypes only admit the shapes the service documents.
- `Compose.Footnotes`: its own contract gives a length bound, that it is empty exactly when there are no sources, and that it ends with a line break. The line-by-line content is stated by `Compose.FootnotesAppendOne` and `Compose.FootnotesSplitIntoLines`.
- `PyStr.Split`: its own contract only says there is at least one piece. The meaning of a split is stated by `PyStr.SplitJoin`, `PyStr.SplitPiecesHaveNoSeparator` and `PyStr.SplitLastPiece`.

=== FILE: citations.dfy ===
/** The citation loop of `query_knowledge_base`: every retrieved reference
    with a non-empty URI becomes one numbered source, in citation-then-reference
    order, with no merging of duplicates. */
module Citations {
  import opened Wrappers
  import opened Seqs
  import opened PyStr
  import opened KeyPhrase

  /** A `webLocation` or `s3Location` entry. `link` is the value under its
      `url` (web) or `uri` (S3) key, `None` when that key is absent. */
  datatype LocationEntry = LocationEntry(link: Option<string>)

  /** A reference's `location`; a reference without one has neither entry. */
  datatype Location = Location(webLocation: Option<LocationEntry>, s3Location: Option<LocationEntry>)

  /** One retrieved reference: where it lives, the optional `metadata.title`,
      and `content.text` (the empty string when absent). */
  datatype Reference = Reference(location: Location, metadataTitle: Option<string>, contentText: string)

  /** One citation of the generated answer; a missing `retrievedReferences` is the empty list. */
  datatype Citation = Citation(retrievedReferences: seq<Reference>)

  /** One entry of the numbered source list. */
  datatype Source = Source(number: nat, title: string, uri: string, snippet: string)

  /** How a source's title is chosen: `lambda_function.py` prefers a truthy
      metadata title, `chatbot_backend.py` always takes the last URI segment. */
  datatype TitleRule = MetadataOrLastSegment | LastSegmentOnly

  /** What looking up a reference's URI yields: the URI together with the
      fallback title of the branch that found it, no URI at all, or the
      `KeyError` raised for an entry without its `url`/`uri` key. */
  datatype Link = Link(uri: string, fallbackTitle: string) | NoLink | MissingKey(key: string)

  const WebFallbackTitle := "Web Document"
  const S3FallbackTitle := "Document"

  /** The URI lookup: `webLocation.url` is preferred, `s3Location.uri` is read
      only when there is no `webLocation`. */
  function LinkOf(location: Location): (r: Link)
    ensures r.MissingKey? ==> r.key == (if location.webLocation.Some? then "url" else "uri")
    ensures r.NoLink? <==> location.webLocation.None? && location.s3Location.None?
  {
    match location.webLocation
    case Some(entry) =>
      (match entry.link
       case Some(uri) => Link(uri, WebFallbackTitle)
       case None => MissingKey("url"))
    case None =>
      match location.s3Location
      case Some(entry) =>
        (match entry.link
         case Some(uri) => Link(uri, S3FallbackTitle)
         case None => MissingKey("uri"))
      case None => NoLink
  }

  /** Which entry supplies the URI: `webLocation.url` verbatim whenever a
      `webLocation` is present, `s3Location.uri` verbatim only when it is not;
      the lookup raises exactly when the chosen entry lacks its key. */
  lemma LinkChoice(location: Location)
    ensures location.webLocation.Some? ==>
      match location.webLocation.value.link
      case Some(uri) => LinkOf(location) == Link(uri, WebFallbackTitle)
      case None => LinkOf(location) == MissingKey("url")
    ensures location.webLocation.None? && location.s3Location.Some? ==>
      match location.s3Location.value.link
      case Some(uri) => LinkOf(location) == Link(uri, S3FallbackTitle)
      case None => LinkOf(location) == MissingKey("uri")
  {
  }

  /** Whenever a `webLocation` is present the `s3Location`, whatever it
      holds, is never read: it neither supplies the URI nor raises. */
  lemma WebLocationShadowsS3(web: LocationEntry, s3: Option<LocationEntry>)
    ensures LinkOf(Location(Some(web), s3)) == LinkOf(Location(Some(web), None))
    ensures LinkOf(Location(Some(web), s3)).Link? ==> LinkOf(Location(Some(web), s3)).uri == web.link.value
    ensures LinkOf(Location(Some(web), s3)).MissingKey? <==> web.link.None?
  {
    LinkChoice(Location(Some(web), s3));
    LinkChoice(Location(Some(web), None));
  }

  /** The reference becomes a source: it has a URI and the URI is non-empty. */
  predicate Cited(reference: Reference) {
    var link := LinkOf(reference.location);
    link.Link? && link.uri != []
  }

  /** Reading the reference's URI raises `KeyError`. */
  predicate Malformed(reference: Reference) {
    LinkOf(reference.location).MissingKey?
  }

  function UriOf(reference: Reference): (r: string)
    requires Cited(reference)
    ensures r != []
  {
    LinkOf(reference.location).uri
  }

  /** The title of a source with a non-empty URI under each rule. */
  function DisplayTitle(rule: TitleRule, metadataTitle: Option<string>, uri: string): (r: string)
    ensures rule.LastSegmentOnly? ==> r == LastSegment(uri)
    ensures rule.MetadataOrLastSegment? && metadataTitle.Some? && metadataTitle.value != [] ==> r == metadataTitle.value
    ensures rule.MetadataOrLastSegment? && (metadataTitle.None? || metadataTitle.value == []) ==> r == LastSegment(uri)
  {
    match rule
    case MetadataOrLastSegment =>
      if metadataTitle.Some? && metadataTitle.value != [] then metadataTitle.value else LastSegment(uri)
    case LastSegmentOnly => LastSegment(uri)
  }

  /** Under the backend's rule the title is the last URI segment whatever
      metadata title the reference carries. */
  lemma BackendTitleIgnoresMetadata(first: Option<string>, second: Option<string>, uri: string)
    ensures DisplayTitle(LastSegmentOnly, first, uri) == DisplayTitle(LastSegmentOnly, second, uri) == LastSegment(uri)
  {
  }

  /** The title expression as `query_knowledge_base` writes it, which Python
      parses as `(meta or last) if uri else fallback`, evaluated before the
      URI is known to be non-empty: an empty URI gives the branch's fallback
      title even when the metadata title is truthy. */
  function TitleExpression(rule: TitleRule, reference: Reference, link: Link): (r: string)
    requires link.Link?
    ensures link.uri == [] ==> r == link.fallbackTitle
    ensures link.uri != [] && rule.LastSegmentOnly? ==> r == LastSegment(link.uri)
    ensures link.uri != [] && rule.MetadataOrLastSegment? ==>
      r == (if reference.metadataTitle.Some? && reference.metadataTitle.value != [] then reference.metadataTitle.value
            else LastSegment(link.uri))
  {
    if link.uri != [] then DisplayTitle(rule, reference.metadataTitle, link.uri) else link.fallbackTitle
  }

  /** All references of all citations, citation by citation. */
  function Flatten(citations: seq<Citation>): (r: seq<Reference>)
  {
    if |citations| == 0 then []
    else citations[0].retrievedReferences + Flatten(citations[1..])
  }

  /** Puts already emitted sources in front of the outcome of the rest of the loop. */
  function Prepend(emitted: seq<Source>, rest: Result<seq<Source>, string>): Result<seq<Source>, string> {
    match rest
    case Ok(sources) => Ok(emitted + sources)
    case Err(key) => Err(key)
  }

  /** The loop over the flattened references with the running counter at
      `next`: a `KeyError` aborts it, a reference without a non-empty URI
      is skipped and takes no number. */
  function SourcesFrom(rule: TitleRule, refs: seq<Reference>, next: nat): (r: Result<seq<Source>, string>)
    ensures r.Ok? ==> |r.value| <= |refs|
    ensures r.Ok? ==> forall i :: 0 <= i < |r.value| ==> r.value[i].number == next + i && r.value[i].uri != []
    decreases |refs|
  {
    if |refs| == 0 then Ok([])
    else
      var link := LinkOf(refs[0].location);
      if link.MissingKey? then Err(link.key)
      else if link.Link? && link.uri != [] then
        var source := Source(next, TitleExpression(rule, refs[0], link), link.uri, ExtractKeyPhrase(refs[0].contentText));
        var rest := SourcesFrom(rule, refs[1..], next + 1);
        PrependNumbered(source, rest, next);
        Prepend([source], rest)
      else SourcesFrom(rule, refs[1..], next)
  }

  /** Putting a source numbered `next` in front of sources numbered from
      `next + 1` gives sources numbered from `next`. */
  lemma PrependNumbered(source: Source, rest: Result<seq<Source>, string>, next: nat)
    requires source.number == next && source.uri != []
    requires rest.Ok? ==> forall i :: 0 <= i < |rest.value| ==> rest.value[i].number == next + 1 + i && rest.value[i].uri != []
    ensures var r := Prepend([source], rest);
      r.Ok? ==> forall i :: 0 <= i < |r.value| ==> r.value[i].number == next + i && r.value[i].uri != []
  {
    if rest.Ok? {
      var r := [source] + rest.value;
      forall i | 0 <= i < |r|
        ensures r[i].number == next + i && r[i].uri != []
      {
        if i > 0 {
          assert r[i] == rest.value[i - 1];
        }
      }
    }
  }

  /** The loop as `query_knowledge_base` runs it: one pass over the citations, an inner
      pass over each citation's references, a counter starting at 1. */
  method ExtractSources(rule: TitleRule, citations: seq<Citation>) returns (r: Result<seq<Source>, string>)
    ensures r == SourcesFrom(rule, Flatten(citations), 1)
  {
    var sources: seq<Source> := [];
    var counter: nat := 1;
    var c := 0;
    PrependNothing(SourcesFrom(rule, Flatten(citations), counter));
    while c < |citations|
      invariant 0 <= c <= |citations|
      invariant SourcesFrom(rule, Flatten(citations), 1) == Prepend(sources, SourcesFrom(rule, Flatten(citations[c..]), counter))
    {
      var refs := citations[c].retrievedReferences;
      ghost var later := Flatten(citations[c + 1..]);
      FlattenStep(citations, c);
      var k := 0;
      while k < |refs|
        invariant 0 <= k <= |refs|
        invariant SourcesFrom(rule, Flatten(citations), 1) == Prepend(sources, SourcesFrom(rule, refs[k..] + later, counter))
      {
        ghost var remaining := refs[k..] + later;
        assert remaining[0] == refs[k] && remaining[1..] == refs[k + 1..] + later;
        var reference := refs[k];
        var link := LinkOf(reference.location);
        if link.MissingKey? {
          return Err(link.key);
        }
        if link.Link? {
          var title := TitleExpression(rule, reference, link);
          if link.uri != [] {
            var snippet := ExtractKeyPhrase(reference.contentText);
            var source := Source(counter, title, link.uri, snippet);
            EmittedSource(rule, remaining, counter);
            PrependTwice(sources, source, SourcesFrom(rule, remaining[1..], counter + 1));
            sources := sources + [source];
            counter := counter + 1;
          }
        }
        k := k + 1;
      }
      assert refs[k..] + later == later;
      c := c + 1;
    }
    assert citations[c..] == [];
    assert sources + [] == sources;
    return Ok(sources);
  }

  lemma FlattenStep(citations: seq<Citation>, c: nat)
    requires c < |citations|
    ensures Flatten(citations[c..]) == citations[c].retrievedReferences[0..] + Flatten(citations[c + 1..])
  {
    assert citations[c..][1..] == citations[c + 1..];
  }

  lemma PrependNothing(rest: Result<seq<Source>, string>)
    ensures Prepend([], rest) == rest
  {
    match rest
    case Ok(v) => assert [] + v == v;
    case Err(_) =>
  }

  lemma PrependTwice(emitted: seq<Source>, source: Source, rest: Result<seq<Source>, string>)
    ensures Prepend(emitted, Prepend([source], rest)) == Prepend(emitted + [source], rest)
  {
    match rest
    case Ok(v) => assert emitted + ([source] + v) == (emitted + [source]) + v;
    case Err(_) =>
  }

  /** The source a cited reference becomes under a given number. */
  function SourceFor(rule: TitleRule, reference: Reference, number: nat): Source
    requires Cited(reference)
  {
    Source(number, DisplayTitle(rule, reference.metadataTitle, UriOf(reference)), UriOf(reference), ExtractKeyPhrase(reference.contentText))
  }

  /** `sources` is the list of cited references, numbered consecutively from `next`. */
  ghost predicate NumberedFrom(sources: seq<Source>, rule: TitleRule, cited: seq<Reference>, next: nat)
    requires forall i :: 0 <= i < |cited| ==> Cited(cited[i])
  {
    && |sources| == |cited|
    && forall i :: 0 <= i < |sources| ==> sources[i] == SourceFor(rule, cited[i], next + i)
  }

  /** The loop fails exactly when some reference is malformed, and then with
      the `KeyError` of the first malformed one. */
  lemma SourcesFailOnFirstMissingKey(rule: TitleRule, refs: seq<Reference>, next: nat)
    ensures SourcesFrom(rule, refs, next).Err? <==> FirstWhere(refs, Malformed).Some?
    ensures FirstWhere(refs, Malformed).Some? ==>
      SourcesFrom(rule, refs, next) == Err(LinkOf(refs[FirstWhere(refs, Malformed).value].location).key)
  {
    if FirstWhere(refs, Malformed).Some? {
      FailsOnFirstMalformed(rule, refs, next);
    } else {
      SucceedsWithoutMalformed(rule, refs, next);
    }
  }

  /** With a malformed reference, the loop stops at the first one. */
  lemma {:induction false} FailsOnFirstMalformed(rule: TitleRule, refs: seq<Reference>, next: nat)
    requires FirstWhere(refs, Malformed).Some?
    ensures SourcesFrom(rule, refs, next) == Err(LinkOf(refs[FirstWhere(refs, Malformed).value].location).key)
  {
    var j := FirstWhere(refs, Malformed).value;
    FailsAt(rule, refs, next, j);
  }

  /** The loop stops with the `KeyError` of reference `j` when every
      reference before it is well-formed. */
  lemma {:induction false} FailsAt(rule: TitleRule, refs: seq<Reference>, next: nat, j: nat)
    requires j < |refs| && Malformed(refs[j])
    requires forall k :: 0 <= k < j ==> !Malformed(refs[k])
    ensures SourcesFrom(rule, refs, next) == Err(LinkOf(refs[j].location).key)
    decreases j
  {
    if j == 0 {
      FailAtMalformed(rule, refs, next);
    } else {
      var tail := refs[1..];
      assert tail[j - 1] == refs[j];
      assert forall k :: 0 <= k < j - 1 ==> tail[k] == refs[k + 1];
      FailsAt(rule, tail, if Cited(refs[0]) then next + 1 else next, j - 1);
      SkipWellFormed(rule, refs, next);
    }
  }

  /** With no malformed reference, the loop succeeds. */
  lemma {:induction false} SucceedsWithoutMalformed(rule: TitleRule, refs: seq<Reference>, next: nat)
    requires FirstWhere(refs, Malformed).None?
    ensures SourcesFrom(rule, refs, next).Ok?
    decreases |refs|
  {
    if |refs| > 0 {
      FirstWhereTail(refs, Malformed);
      var later := if Cited(refs[0]) then next + 1 else next;
      SucceedsWithoutMalformed(rule, refs[1..], later);
      SkipWellFormed(rule, refs, next);
    }
  }


  /** A reference that raises stops the loop with its `KeyError`. */
  lemma FailAtMalformed(rule: TitleRule, refs: seq<Reference>, next: nat)
    requires |refs| > 0 && Malformed(refs[0])
    ensures SourcesFrom(rule, refs, next) == Err(LinkOf(refs[0].location).key)
  {
  }

  /** Past a reference that does not raise, the loop fails exactly when the
      rest of it fails, and with the same `KeyError`. */
  lemma SkipWellFormed(rule: TitleRule, refs: seq<Reference>, next: nat)
    requires |refs| > 0 && !Malformed(refs[0])
    ensures var rest := SourcesFrom(rule, refs[1..], if Cited(refs[0]) then next + 1 else next);
      && (SourcesFrom(rule, refs, next).Err? <==> rest.Err?)
      && (rest.Err? ==> SourcesFrom(rule, refs, next).error == rest.error)
  {
  }

  /** The cited references, in order, each turned into its source and
      numbered one above the previous, starting at `next`. */
  function Numbered(rule: TitleRule, cited: seq<Reference>, next: nat): (r: seq<Source>)
    requires forall i :: 0 <= i < |cited| ==> Cited(cited[i])
    ensures |r| == |cited|
    decreases |cited|
  {
    if |cited| == 0 then [] else [SourceFor(rule, cited[0], next)] + Numbered(rule, cited[1..], next + 1)
  }

  /** Position `i` of the numbered list is the `i`-th cited reference under number `next + i`. */
  lemma {:induction false} NumberedAt(rule: TitleRule, cited: seq<Reference>, next: nat, i: nat)
    requires forall k :: 0 <= k < |cited| ==> Cited(cited[k])
    requires i < |cited|
    ensures Numbered(rule, cited, next)[i] == SourceFor(rule, cited[i], next + i)
    decreases i
  {
    if i > 0 {
      NumberedAt(rule, cited[1..], next + 1, i - 1);
      assert cited[1..][i - 1] == cited[i];
    }
  }

  /** The numbered list meets the position-by-position description. */
  lemma NumberedListIsNumberedFrom(rule: TitleRule, cited: seq<Reference>, next: nat)
    requires forall k :: 0 <= k < |cited| ==> Cited(cited[k])
    ensures NumberedFrom(Numbered(rule, cited, next), rule, cited, next)
  {
    forall i | 0 <= i < |cited|
      ensures Numbered(rule, cited, next)[i] == SourceFor(rule, cited[i], next + i)
    {
      NumberedAt(rule, cited, next, i);
    }
  }

  lemma NumberedCons(rule: TitleRule, reference: Reference, cited: seq<Reference>, next: nat)
    requires Cited(reference) && forall k :: 0 <= k < |cited| ==> Cited(cited[k])
    ensures forall k :: 0 <= k < |[reference] + cited| ==> Cited(([reference] + cited)[k])
    ensures Numbered(rule, [reference] + cited, next) == [SourceFor(rule, reference, next)] + Numbered(rule, cited, next + 1)
  {
    assert ([reference] + cited)[1..] == cited;
  }

  /** A well-formed reference without a non-empty URI is skipped and takes no number. */
  lemma SkipUncited(rule: TitleRule, refs: seq<Reference>, next: nat)
    requires |refs| > 0 && !Malformed(refs[0]) && !Cited(refs[0])
    ensures SourcesFrom(rule, refs, next) == SourcesFrom(rule, refs[1..], next)
  {
  }

  /** A successful loop yields the numbered list of the cited references. */
  lemma {:induction false} SourcesAreNumbered(rule: TitleRule, refs: seq<Reference>, next: nat)
    requires SourcesFrom(rule, refs, next).Ok?
    ensures SourcesFrom(rule, refs, next).value == Numbered(rule, Filter(refs, Cited), next)
    decreases |refs|
  {
    if |refs| > 0 {
      var tail := refs[1..];
      assert !Malformed(refs[0]);
      assert Filter(refs, Cited) == (if Cited(refs[0]) then [refs[0]] else []) + Filter(tail, Cited);
      if Cited(refs[0]) {
        EmittedSource(rule, refs, next);
        SourcesAreNumbered(rule, tail, next + 1);
        NumberedCons(rule, refs[0], Filter(tail, Cited), next);
      } else {
        SkipUncited(rule, refs, next);
        SourcesAreNumbered(rule, tail, next);
        assert Filter(refs, Cited) == Filter(tail, Cited);
      }
    }
  }

  /** A successful loop yields exactly the cited references, in order, each
      numbered one above the previous, with its URI verbatim, the title its
      rule picks (never the fallback title) and its content's key phrase. */
  lemma SourcesAreNumberedCitedReferences(rule: TitleRule, refs: seq<Reference>, next: nat)
    requires SourcesFrom(rule, refs, next).Ok?
    ensures NumberedFrom(SourcesFrom(rule, refs, next).value, rule, Filter(refs, Cited), next)
  {
    SourcesAreNumbered(rule, refs, next);
    NumberedListIsNumberedFrom(rule, Filter(refs, Cited), next);
  }

  /** One unfolding of the loop at a cited reference: its source goes first. */
  lemma EmittedSource(rule: TitleRule, refs: seq<Reference>, next: nat)
    requires |refs| > 0 && Cited(refs[0])
    ensures SourcesFrom(rule, refs, next) == Prepend([SourceFor(rule, refs[0], next)], SourcesFrom(rule, refs[1..], next + 1))
    ensures SourceFor(rule, refs[0], next)
         == Source(next, TitleExpression(rule, refs[0], LinkOf(refs[0].location)), UriOf(refs[0]), ExtractKeyPhrase(refs[0].contentText))
  {
  }

  /** Two references with the same URI are not merged: each gets its own number. */
  lemma DuplicatesNotMerged(rule: TitleRule, reference: Reference)
    requires Cited(reference)
    ensures SourcesFrom(rule, [reference, reference], 1) == Ok([SourceFor(rule, reference, 1), SourceFor(rule, reference, 2)])
  {
    EmittedSource(rule, [reference, reference], 1);
    assert [reference, reference][1..] == [reference];
    EmittedSource(rule, [reference], 2);
    assert [reference][1..] == [];
    var first, second := SourceFor(rule, reference, 1), SourceFor(rule, reference, 2);
    assert SourcesFrom(rule, [], 3) == Ok([]);
    assert SourcesFrom(rule, [reference], 2) == Ok([second]) by {
      assert [second] + [] == [second];
    }
    assert [first] + [second] == [first, second];
  }
}

=== FILE: compose.dfy ===
/** The footnote section the handlers append to the generated answer. */
module Compose {
  import opened Seqs
  import opened PyStr
  import opened Decimal
  import opened Citations

  /** Appended once, before the footnote lines, when there is any source. */
  const SourcesHeader := "\n\n**Sources:**\n"

  /** `f"[{number}] {title}"`: one footnote without its line break. */
  function FootnoteText(source: Source): (r: string)
    ensures var digits := NatToString(source.number);
      && |r| == |digits| + |source.title| + 3
      && r[0] == '[' && r[1..1 + |digits|] == digits
      && r[1 + |digits|..3 + |digits|] == "] "
      && r[3 + |digits|..] == source.title
  {
    "[" + NatToString(source.number) + "] " + source.title
  }

  /** One footnote line per source, in order, each ended by a line break. */
  function Footnotes(sources: seq<Source>): (r: string)
    ensures |r| >= 5 * |sources|
    ensures r == [] <==> sources == []
    ensures sources != [] ==> r[|r| - 1] == '\n'
  {
    if |sources| == 0 then []
    else FootnoteText(sources[0]) + "\n" + Footnotes(sources[1..])
  }

  /** The answer, followed by the header and the footnotes only when there
      are sources. */
  function ComposeAnswer(answer: string, sources: seq<Source>): (r: string)
    ensures |answer| <= |r| && r[..|answer|] == answer
    ensures r == answer <==> sources == []
    ensures sources != [] ==> |answer| + |SourcesHeader| <= |r| && r[|answer|..|answer| + |SourcesHeader|] == SourcesHeader
    ensures sources != [] ==> r[|answer| + |SourcesHeader|..] == Footnotes(sources)
  {
    if |sources| == 0 then answer else answer + SourcesHeader + Footnotes(sources)
  }

  /** A footnote line holds a line break only if the title does. */
  lemma FootnoteTextIsOneLine(source: Source)
    requires '\n' !in source.title
    ensures '\n' !in FootnoteText(source)
  {
    var digits := NatToString(source.number);
    assert '\n' !in digits by {
      forall k | 0 <= k < |digits|
        ensures digits[k] != '\n'
      {
        assert IsDigit(digits[k]);
      }
    }
  }

  /** When no title holds a line break, the footnotes read back, line by line,
      as exactly one `[n] title` per source and nothing after the last break. */
  lemma {:induction false} FootnotesSplitIntoLines(sources: seq<Source>)
    requires forall i :: 0 <= i < |sources| ==> '\n' !in sources[i].title
    ensures var lines := Split(Footnotes(sources), "\n");
      && |lines| == |sources| + 1
      && lines[|sources|] == []
      && forall i :: 0 <= i < |sources| ==> lines[i] == FootnoteText(sources[i])
    decreases |sources|
  {
    if |sources| == 0 {
      SplitWithoutSeparator([], '\n');
    } else {
      FootnoteTextIsOneLine(sources[0]);
      FootnotesSplitIntoLines(sources[1..]);
      SplitOnCharAfter(FootnoteText(sources[0]), '\n', Footnotes(sources[1..]));
      assert Footnotes(sources) == FootnoteText(sources[0]) + ['\n'] + Footnotes(sources[1..]);
    }
  }

  lemma FootnotesCons(first: Source, rest: seq<Source>)
    ensures Footnotes([first] + rest) == FootnoteText(first) + "\n" + Footnotes(rest)
  {
    assert ([first] + rest)[1..] == rest;
  }

  /** `response_text += f"[{n}] {title}\n"` once more: appending one source
      to the list appends its footnote line to the section. */
  lemma {:induction false} FootnotesAppendOne(sources: seq<Source>, source: Source)
    ensures Footnotes(sources + [source]) == Footnotes(sources) + (FootnoteText(source) + "\n")
    decreases |sources|
  {
    if |sources| == 0 {
      assert sources + [source] == [source] + [];
      FootnotesCons(source, []);
    } else {
      var first, rest := sources[0], sources[1..];
      assert sources == [first] + rest;
      assert sources + [source] == [first] + (rest + [source]);
      FootnotesAppendOne(rest, source);
      FootnotesCons(first, rest + [source]);
      FootnotesCons(first, rest);
      ConcatAssoc(FootnoteText(first) + "\n", Footnotes(rest), FootnoteText(source) + "\n");
    }
  }

  /** The loop of the handlers, one `+=` per source after the header, builds
      exactly the composed response. */
  method ComposeByLoop(answer: string, sources: seq<Source>) returns (text: string)
    ensures text == ComposeAnswer(answer, sources)
  {
    text := answer;
    if |sources| > 0 {
      text := text + SourcesHeader;
      var k := 0;
      while k < |sources|
        invariant 0 <= k <= |sources|
        invariant text == answer + SourcesHeader + Footnotes(sources[..k])
      {
        AppendFootnoteLine(answer + SourcesHeader, sources, k);
        text := text + (FootnoteText(sources[k]) + "\n");
        k := k + 1;
      }
      assert sources[..k] == sources;
    }
  }

  /** One pass of the loop: the text so far, then the next footnote line. */
  lemma AppendFootnoteLine(prefix: string, sources: seq<Source>, k: nat)
    requires k < |sources|
    ensures prefix + Footnotes(sources[..k]) + (FootnoteText(sources[k]) + "\n") == prefix + Footnotes(sources[..k + 1])
  {
    var line := FootnoteText(sources[k]) + "\n";
    FootnotesAppendOne(sources[..k], sources[k]);
    assert sources[..k + 1] == sources[..k] + [sources[k]];
    ConcatAssoc(prefix, Footnotes(sources[..k]), line);
  }

  /** After the header, the composed response reads back, line by line, as
      one `[n] title` per source when no title holds a line break, so it has
      as many lines as there are sources. */
  lemma ComposedFootnoteLines(answer: string, sources: seq<Source>)
    requires sources != []
    requires forall i :: 0 <= i < |sources| ==> '\n' !in sources[i].title
    ensures var lines := Split(ComposeAnswer(answer, sources)[|answer| + |SourcesHeader|..], "\n");
      && |lines| == |sources| + 1
      && lines[|sources|] == []
      && forall i :: 0 <= i < |sources| ==> lines[i] == FootnoteText(sources[i])
  {
    FootnotesSplitIntoLines(sources);
  }

  /** The number a footnote shows reads back as the source's number. */
  lemma FootnoteShowsNumber(source: Source)
    ensures var digits := NatToString(source.number);
      && FootnoteText(source)[0] == '['
      && FootnoteText(source)[1..1 + |digits|] == digits
      && ParseDecimal(digits) == source.number
  {
    ParseNatToString(source.number);
  }
}

=== FILE: decimal.dfy ===
/** Python's `f"{n}"` for a non-negative integer, and the reading that undoes it. */
module Decimal {

  predicate IsDigit(c: char) {
    '0' <= c <= '9'
  }

  function DigitChar(d: nat): (c: char)
    requires d < 10
    ensures IsDigit(c)
  {
    ('0' as int + d) as char
  }

  function DigitValue(c: char): (d: nat)
    requires IsDigit(c)
    ensures d < 10
  {
    c as int - '0' as int
  }

  /** The decimal numeral of `n`, most significant digit first, without leading zeros. */
  function NatToString(n: nat): (r: string)
    ensures |r| >= 1
    ensures forall k :: 0 <= k < |r| ==> IsDigit(r[k])
    ensures |r| > 1 ==> r[0] != '0'
    decreases n
  {
    if n < 10 then [DigitChar(n)]
    else NatToString(n / 10) + [DigitChar(n % 10)]
  }

  /** The value of a string of decimal digits. */
  function ParseDecimal(s: string): nat
    requires forall k :: 0 <= k < |s| ==> IsDigit(s[k])
  {
    if |s| == 0 then 0
    else 10 * ParseDecimal(s[..|s| - 1]) + DigitValue(s[|s| - 1])
  }

  /** Reading a rendered number gives the number back. */
  lemma {:induction false} ParseNatToString(n: nat)
    ensures ParseDecimal(NatToString(n)) == n
    decreases n
  {
    var r := NatToString(n);
    if n < 10 {
      assert r[..0] == [];
    } else {
      ParseNatToString(n / 10);
      assert r[..|r| - 1] == NatToString(n / 10);
    }
  }
}

=== FILE: handlers.dfy ===
/** The reply both request handlers build around `query_knowledge_base`;
    the HTTP envelopes (status codes, headers, JSON) are not modelled. */
module Reply {
  import opened Seqs
  import opened Citations
  import opened Compose
  import opened Query

  /** The `{response, sources}` body, or the 400 `{error}` body. */
  datatype Reply = Answer(response: string, sources: seq<Source>) | BadRequest(error: string)

  const NoMessage := "No message provided"

  /** Rejects an empty message, otherwise queries and appends the footnotes. */
  method Respond(rule: TitleRule, message: string, remote: Response) returns (reply: Reply)
    ensures message == [] ==> reply == BadRequest(NoMessage)
    ensures message != [] ==> reply.Answer?
    ensures message != [] && remote.Raised? ==> reply == Answer(TroublePrefix + remote.message, [])
    ensures message != [] && remote.Answered? && remote.citations.None? ==> reply == Answer(remote.outputText, [])
    ensures message != [] && remote.Answered? && remote.citations.Some? ==>
      var refs := Flatten(remote.citations.value);
      match FirstWhere(refs, Malformed)
      case Some(i) => reply == Answer(TroublePrefix + KeyErrorMessage(LinkOf(refs[i].location).key), [])
      case None =>
        && NumberedFrom(reply.sources, rule, Filter(refs, Cited), 1)
        && reply.response == ComposeAnswer(remote.outputText, reply.sources)
    ensures reply.Answer? ==> forall i :: 0 <= i < |reply.sources| ==> reply.sources[i].number == i + 1
  {
    if message == [] {
      return BadRequest(NoMessage);
    }
    var result := QueryKnowledgeBase(rule, remote);
    var text := ComposeByLoop(result.answer, result.sources);
    return Answer(text, result.sources);
  }
}

/** The Lambda handler of `lambda_function.py`: a truthy metadata title is
    preferred to the last URI segment. */
module LambdaFunction {
  import opened Seqs
  import opened PyStr
  import opened Citations
  import opened Compose
  import opened Query
  import opened Reply

  /** Answers one `message`, given what the remote call returns for it. */
  method LambdaHandler(message: string, remote: Response) returns (reply: Reply)
    ensures message == [] ==> reply == BadRequest(NoMessage)
    ensures message != [] && remote.Raised? ==> reply == Answer(TroublePrefix + remote.message, [])
    ensures message != [] && remote.Answered? && remote.citations.None? ==> reply == Answer(remote.outputText, [])
    ensures message != [] && remote.Answered? && remote.citations.Some? ==>
      var refs := Flatten(remote.citations.value);
      match FirstWhere(refs, Malformed)
      case Some(i) => reply == Answer(TroublePrefix + KeyErrorMessage(LinkOf(refs[i].location).key), [])
      case None =>
        && reply.Answer?
        && NumberedFrom(reply.sources, MetadataOrLastSegment, Filter(refs, Cited), 1)
        && reply.response == ComposeAnswer(remote.outputText, reply.sources)
    ensures message != [] && remote.Answered? && remote.citations.Some? ==>
      var refs := Flatten(remote.citations.value);
      var cited := Filter(refs, Cited);
      FirstWhere(refs, Malformed).None? ==>
        && reply.Answer?
        && |reply.sources| == |cited|
        && forall i :: 0 <= i < |reply.sources| ==>
             var title := cited[i].metadataTitle;
             reply.sources[i].title == (if title.Some? && title.value != [] then title.value else LastSegment(reply.sources[i].uri))
  {
    reply := Respond(MetadataOrLastSegment, message, remote);
  }
}

/** The `/chat` route of `chatbot_backend.py`: the title is always the last
    URI segment and reference metadata is ignored. */
module ChatbotBackend {
  import opened Seqs
  import opened PyStr
  import opened Compose
  import opened Citations
  import opened Query
  import opened Reply

  /** Answers one `message`, given what the remote call returns for it. */
  method Chat(message: string, remote: Response) returns (reply: Reply)
    ensures message == [] ==> reply == BadRequest(NoMessage)
    ensures message != [] && remote.Raised? ==> reply == Answer(TroublePrefix + remote.message, [])
    ensures message != [] && remote.Answered? && remote.citations.None? ==> reply == Answer(remote.outputText, [])
    ensures message != [] && remote.Answered? && remote.citations.Some? ==>
      var refs := Flatten(remote.citations.value);
      match FirstWhere(refs, Malformed)
      case Some(i) => reply == Answer(TroublePrefix + KeyErrorMessage(LinkOf(refs[i].location).key), [])
      case None =>
        && reply.Answer?
        && NumberedFrom(reply.sources, LastSegmentOnly, Filter(refs, Cited), 1)
        && reply.response == ComposeAnswer(remote.outputText, reply.sources)
    ensures reply.Answer? ==> forall i :: 0 <= i < |reply.sources| ==>
      && reply.sources[i].title == LastSegment(reply.sources[i].uri)
      && '/' !in reply.sources[i].title
  {
    reply := Respond(LastSegmentOnly, message, remote);
  }
}

=== FILE: keyphrase.dfy ===
/** `extract_key_phrase`: a short excerpt of a retrieved passage, chosen by a
    first-match-wins cascade (heading line, then a mid-length sentence among
    the first three, then the trimmed text), always cut to fifty characters. */
module KeyPhrase {
  import opened Wrappers
  import opened Seqs
  import opened PyStr

  /** Every excerpt is cut to this many characters (`[:50]`). */
  const MaxLength: nat := 50
  /** Only this many `". "`-separated sentences are looked at (`sentences[:3]`). */
  const SentencesConsidered: nat := 3
  /** A heading is a line that starts with this marker. */
  const HeadingMarker: char := '#'

  /** `text.split('\n')` */
  function Lines(text: string): seq<string> {
    Split(text, "\n")
  }

  /** `text.split('. ')[:3]` */
  function LeadingSentences(text: string): (r: seq<string>)
    ensures var pieces := Split(text, ". ");
      && |r| == (if |pieces| < SentencesConsidered then |pieces| else SentencesConsidered)
      && r == pieces[..|r|]
  {
    Prefix(Split(text, ". "), SentencesConsidered)
  }

  /** A line whose stripped form starts with `#` and is longer than three characters. */
  predicate IsHeading(line: string) {
    var t := Strip(line);
    t != [] && t[0] == HeadingMarker && |t| > 3
  }

  /** A sentence whose stripped length lies strictly between 20 and 100. */
  predicate IsMidLength(sentence: string) {
    20 < |Strip(sentence)| < 100
  }

  /** The phrase a heading line yields: the stripped line with every `#`
      removed, stripped again and cut to the maximum length. */
  function HeadingPhrase(line: string): (r: string)
    ensures |r| <= MaxLength
    ensures HeadingMarker !in r
  {
    var bare := Strip(RemoveAll(Strip(line), HeadingMarker));
    var r := Prefix(bare, MaxLength);
    assert forall c :: c in r ==> c in bare;
    r
  }

  function ExtractKeyPhrase(text: string): (r: string)
    ensures |r| <= MaxLength
    ensures text == [] ==> r == []
  {
    if text == [] then []
    else
      var lines := Lines(text);
      match FirstWhere(lines, IsHeading)
      case Some(i) => HeadingPhrase(lines[i])
      case None =>
        var sentences := LeadingSentences(text);
        match FirstWhere(sentences, IsMidLength)
        case Some(j) => Prefix(Strip(sentences[j]), MaxLength)
        case None => Prefix(Strip(text), MaxLength)
  }

  /** Heading rule: the first heading line decides the phrase, which then
      holds no `#`. */
  lemma HeadingRule(text: string, i: nat)
    requires i < |Lines(text)| && IsHeading(Lines(text)[i])
    requires forall k :: 0 <= k < i ==> !IsHeading(Lines(text)[k])
    ensures ExtractKeyPhrase(text) == Prefix(Strip(RemoveAll(Strip(Lines(text)[i]), HeadingMarker)), MaxLength)
    ensures HeadingMarker !in ExtractKeyPhrase(text)
  {
    EmptyText();
    assert text != [];
    assert FirstWhere(Lines(text), IsHeading) == Some(i);
  }

  /** Sentence rule: with no heading, the first of the first three sentences
      of mid length decides the phrase. */
  lemma SentenceRule(text: string, j: nat)
    requires forall k :: 0 <= k < |Lines(text)| ==> !IsHeading(Lines(text)[k])
    requires j < |LeadingSentences(text)| && IsMidLength(LeadingSentences(text)[j])
    requires forall k :: 0 <= k < j ==> !IsMidLength(LeadingSentences(text)[k])
    ensures j < SentencesConsidered
    ensures ExtractKeyPhrase(text) == Prefix(Strip(Split(text, ". ")[j]), MaxLength)
  {
    EmptyTextHasNoMidLengthSentence();
    assert text != [];
    var sentences := LeadingSentences(text);
    assert FirstWhere(Lines(text), IsHeading) == None;
    FirstWhereAt(sentences, IsMidLength, j);
    assert sentences[j] == Split(text, ". ")[j];
  }

  /** Fallback rule: with no heading and no mid-length sentence among the
      first three, the phrase is the start of the stripped text, whatever the
      later sentences hold. */
  lemma FallbackRule(text: string)
    requires forall k :: 0 <= k < |Lines(text)| ==> !IsHeading(Lines(text)[k])
    requires forall k :: 0 <= k < |LeadingSentences(text)| ==> !IsMidLength(LeadingSentences(text)[k])
    ensures ExtractKeyPhrase(text) == Prefix(Strip(text), MaxLength)
    ensures ExtractKeyPhrase(text) == Strip(text)[..|ExtractKeyPhrase(text)|]
  {
  }

  /** The empty text is one empty line and one empty sentence. */
  lemma EmptyText()
    ensures Lines([]) == [[]]
    ensures LeadingSentences([]) == [[]]
  {
    assert Find([], "\n", 0) == None;
    assert Find([], ". ", 0) == None;
  }

  /** The empty text holds no sentence of mid length. */
  lemma EmptyTextHasNoMidLengthSentence()
    ensures forall k :: 0 <= k < |LeadingSentences([])| ==> !IsMidLength(LeadingSentences([])[k])
  {
    EmptyText();
  }

  /** A heading made only of markers yields the empty phrase. */
  lemma MarkersOnlyHeading()
    ensures ExtractKeyPhrase("####") == []
  {
    var text := "####";
    SplitWithoutSeparator(text, '\n');
    assert Lines(text) == [text];
    assert Strip(text) == text by {
      assert TrimStart(text) == text;
      assert TrimEnd(text) == text;
    }
    assert IsHeading(text);
    assert RemoveAll(text, HeadingMarker) == [];
  }
}

=== FILE: pystr.dfy ===
/** The Python `str` operations the key-phrase extractor and the citation
    loop rely on: `isspace`, `strip`, `split`, `replace(c, '')` and
    `split('/')[-1]`, with the helpers `Find`, which defines `Split`, and
    `Join`, which states its round trip. */
module PyStr {
  import opened Wrappers
  import opened Seqs

  /** CPython's `str.isspace()`: the code points of Unicode category Zs or
      bidirectional class WS, B or S. */
  predicate IsWhitespace(c: char) {
    var n := c as int;
    || (9 <= n <= 13)
    || (28 <= n <= 32)
    || n == 0x85
    || n == 0xA0
    || n == 0x1680
    || (0x2000 <= n <= 0x200A)
    || n == 0x2028
    || n == 0x2029
    || n == 0x202F
    || n == 0x205F
    || n == 0x3000
  }

  /** Python's `s.lstrip()`. */
  function TrimStart(s: string): (r: string)
    ensures |r| <= |s| && r == s[|s| - |r|..]
    ensures forall k :: 0 <= k < |s| - |r| ==> IsWhitespace(s[k])
    ensures r == [] || !IsWhitespace(r[0])
  {
    if |s| > 0 && IsWhitespace(s[0]) then TrimStart(s[1..]) else s
  }

  /** Python's `s.rstrip()`. */
  function TrimEnd(s: string): (r: string)
    ensures |r| <= |s| && r == s[..|r|]
    ensures forall k :: |r| <= k < |s| ==> IsWhitespace(s[k])
    ensures r == [] || !IsWhitespace(r[|r| - 1])
  {
    if |s| > 0 && IsWhitespace(s[|s| - 1]) then TrimEnd(s[..|s| - 1]) else s
  }

  /** Python's `s.strip()`: the slice of `s` left once the whitespace runs at
      both ends are cut off. */
  function Strip(s: string): (r: string)
    ensures |r| <= |s|
    ensures r == [] || (!IsWhitespace(r[0]) && !IsWhitespace(r[|r| - 1]))
    ensures exists i :: StrippedAt(s, r, i)
    ensures forall c :: c in r ==> c in s
  {
    var t := TrimStart(s);
    var r := TrimEnd(t);
    assert StrippedAt(s, r, |s| - |t|);
    r
  }

  /** `r` is `s[i..i + |r|]` and everything of `s` outside that slice is whitespace. */
  ghost predicate StrippedAt(s: string, r: string, i: int) {
    && 0 <= i <= |s| - |r|
    && r == s[i..i + |r|]
    && (forall k :: 0 <= k < i ==> IsWhitespace(s[k]))
    && (forall k :: i + |r| <= k < |s| ==> IsWhitespace(s[k]))
  }

  /** `t` occurs in `s` starting at index `i`. */
  predicate OccursAt(s: string, t: string, i: nat) {
    i + |t| <= |s| && s[i..i + |t|] == t
  }

  ghost predicate Occurs(s: string, t: string) {
    exists i: nat :: OccursAt(s, t, i)
  }

  /** Python's `s.find(t, start)`, with `None` in place of `-1`: the leftmost
      occurrence of `t` at or after `start`. */
  function Find(s: string, t: string, start: nat): (r: Option<nat>)
    ensures r.None? ==> forall k: nat :: start <= k ==> !OccursAt(s, t, k)
    ensures r.Some? ==> start <= r.value && OccursAt(s, t, r.value)
    ensures r.Some? ==> forall k: nat :: start <= k < r.value ==> !OccursAt(s, t, k)
    decreases |s| - start
  {
    if start + |t| > |s| then None
    else if OccursAt(s, t, start) then Some(start)
    else Find(s, t, start + 1)
  }

  /** Python's `sep.join(pieces)`. */
  function Join(pieces: seq<string>, sep: string): string {
    if |pieces| == 0 then []
    else if |pieces| == 1 then pieces[0]
    else pieces[0] + sep + Join(pieces[1..], sep)
  }

  lemma JoinCons(first: string, rest: seq<string>, sep: string)
    requires |rest| > 0
    ensures Join([first] + rest, sep) == first + sep + Join(rest, sep)
  {
    assert ([first] + rest)[1..] == rest;
  }

  /** Python's `s.split(sep)` for a non-empty separator: cut at every
      occurrence of `sep`, found left to right without overlaps. Python
      raises `ValueError` for an empty separator, which `extract_key_phrase`
      and the title lookup never pass. */
  function Split(s: string, sep: string): (r: seq<string>)
    requires |sep| > 0
    ensures |r| >= 1
    decreases |s|
  {
    match Find(s, sep, 0)
    case None => [s]
    case Some(i) => [s[..i]] + Split(s[i + |sep|..], sep)
  }

  /** One step of a split: the text before the first separator, then the
      split of what follows it. */
  lemma SplitAtFirst(s: string, sep: string, i: nat)
    requires |sep| > 0
    requires Find(s, sep, 0) == Some(i)
    ensures i + |sep| <= |s|
    ensures Split(s, sep) == [s[..i]] + Split(s[i + |sep|..], sep)
  {
  }

  /** Joining the pieces of a split with the same separator gives back the input. */
  lemma {:induction false} SplitJoin(s: string, sep: string)
    requires |sep| > 0
    ensures Join(Split(s, sep), sep) == s
    decreases |s|
  {
    var found := Find(s, sep, 0);
    if found.Some? {
      var i := found.value;
      var tail := s[i + |sep|..];
      var rest := Split(tail, sep);
      SplitJoin(tail, sep);
      SplitAtFirst(s, sep, i);
      JoinCons(s[..i], rest, sep);
      assert s[i..i + |sep|] == sep;
      assert s == s[..i] + s[i..i + |sep|] + tail;
    }
  }

  /** No piece of a split holds the separator. */
  lemma {:induction false} SplitPiecesHaveNoSeparator(s: string, sep: string)
    requires |sep| > 0
    ensures forall k :: 0 <= k < |Split(s, sep)| ==> !Occurs(Split(s, sep)[k], sep)
    decreases |s|
  {
    var found := Find(s, sep, 0);
    if found.Some? {
      var i := found.value;
      var tail := s[i + |sep|..];
      SplitPiecesHaveNoSeparator(tail, sep);
      SplitAtFirst(s, sep, i);
      assert !Occurs(s[..i], sep) by {
        forall j: nat | j + |sep| <= i
          ensures !OccursAt(s[..i], sep, j)
        {
          SliceOfPrefix(s, i, j, |sep|);
          assert !OccursAt(s, sep, j);
        }
      }
    }
  }

  /** `p` is a suffix of `s`, and unless it is all of `s` it is preceded by `sep`. */
  ghost predicate SuffixAfter(s: string, sep: string, p: string) {
    && |p| <= |s| && p == s[|s| - |p|..]
    && (|p| < |s| ==> |p| + |sep| <= |s| && s[|s| - |p| - |sep|..|s| - |p|] == sep)
  }

  /** The last piece of a split is a suffix of the input; unless it is the
      whole input, a separator comes right before it. */
  lemma {:induction false} SplitLastPiece(s: string, sep: string)
    requires |sep| > 0
    ensures SuffixAfter(s, sep, LastOf(Split(s, sep)))
    decreases |s|
  {
    var found := Find(s, sep, 0);
    if found.None? {
      assert Split(s, sep) == [s];
      assert s[|s| - |s|..] == s;
    } else {
      var i := found.value;
      var tail := s[i + |sep|..];
      var rest := Split(tail, sep);
      SplitLastPiece(tail, sep);
      SplitAtFirst(s, sep, i);
      LastOfCons(s[..i], rest);
      SuffixAfterExtend(s, sep, i, LastOf(rest));
    }
  }

  /** A suffix that follows a separator in the tail after an occurrence of
      that separator also follows a separator in the whole string. */
  lemma SuffixAfterExtend(s: string, sep: string, i: nat, p: string)
    requires OccursAt(s, sep, i)
    requires SuffixAfter(s[i + |sep|..], sep, p)
    ensures SuffixAfter(s, sep, p)
  {
    var start := i + |sep|;
    var tail := s[start..];
    SliceOfSuffix(s, start, |tail| - |p|, |tail|);
    if |p| < |tail| {
      SliceOfSuffix(s, start, |tail| - |p| - |sep|, |tail| - |p|);
    }
  }

  /** Splitting on a one-character separator peels off a leading piece that
      holds no separator. */
  lemma SplitOnCharAfter(a: string, c: char, b: string)
    requires c !in a
    ensures Split(a + [c] + b, [c]) == [a] + Split(b, [c])
  {
    var s := a + [c] + b;
    assert OccursAt(s, [c], |a|);
    forall k: nat | k < |a|
      ensures !OccursAt(s, [c], k)
    {
      assert s[k] == a[k];
    }
    assert s[..|a|] == a;
    assert s[|a| + 1..] == b;
  }

  /** A string without the separator splits into itself alone. */
  lemma SplitWithoutSeparator(s: string, c: char)
    requires c !in s
    ensures Split(s, [c]) == [s]
  {
    forall k: nat | k < |s|
      ensures !OccursAt(s, [c], k)
    {
      assert s[k..k + 1] == [s[k]];
    }
  }

  /** A string in which `[c]` does not occur does not contain `c`. */
  lemma SeparatorFree(s: string, c: char)
    requires !Occurs(s, [c])
    ensures c !in s
  {
    forall k | 0 <= k < |s|
      ensures s[k] != c
    {
      assert s[k..k + 1] == [s[k]];
      assert !OccursAt(s, [c], k);
    }
  }

  /** Python's `s.replace(c, '')` for a one-character `c`. */
  function RemoveAll(s: string, c: char): (r: string)
    ensures c !in r
    ensures multiset(r) == multiset(s)[c := 0]
    ensures r == Filter(s, x => x != c)
  {
    if |s| == 0 then []
    else
      assert s == [s[0]] + s[1..];
      (if s[0] == c then [] else [s[0]]) + RemoveAll(s[1..], c)
  }

  /** Removal keeps the order of what remains: removing from a concatenation
      concatenates the removals. */
  lemma {:induction false} RemoveAllAppend(a: string, b: string, c: char)
    ensures RemoveAll(a + b, c) == RemoveAll(a, c) + RemoveAll(b, c)
    decreases |a|
  {
    if |a| > 0 {
      var head: string := if a[0] == c then [] else [a[0]];
      var s := a + b;
      assert s[0] == a[0] && s[1..] == a[1..] + b;
      assert RemoveAll(s, c) == head + RemoveAll(a[1..] + b, c);
      RemoveAllAppend(a[1..], b, c);
      assert RemoveAll(a, c) == head + RemoveAll(a[1..], c);
    } else {
      assert a + b == b;
    }
  }

  /** Python's `s.split('/')[-1]`: the last `/`-separated segment. */
  function LastSegment(s: string): (r: string)
    ensures '/' !in r
    ensures |r| <= |s| && r == s[|s| - |r|..]
    ensures |r| < |s| ==> s[|s| - |r| - 1] == '/'
  {
    var parts := Split(s, "/");
    SplitLastPiece(s, "/");
    SplitPiecesHaveNoSeparator(s, "/");
    var r := LastOf(parts);
    SeparatorFree(r, '/');
    r
  }
}

=== FILE: query.dfy ===
/** `query_knowledge_base` after the remote call: the answer text, the
    source list, and the degraded answer that replaces both when anything
    raises. */
module Query {
  import opened Wrappers
  import opened Seqs
  import opened Citations

  /** What the remote retrieve-and-generate call gave back. `Answered`
      carries `output.text` and the `citations` list when that key is present;
      `Raised` carries `str(e)` for an exception raised by the call itself or
      by reading `output.text`. */
  datatype Response = Answered(outputText: string, citations: Option<seq<Citation>>) | Raised(message: string)

  /** The `{answer, sources}` dictionary. */
  datatype QueryResult = QueryResult(answer: string, sources: seq<Source>)

  const TroublePrefix := "I'm having trouble accessing the knowledge base right now. Error: "

  /** `str(KeyError(key))`: the key in single quotes. */
  function KeyErrorMessage(key: string): (r: string)
    ensures |r| == |key| + 2 && r[0] == '\'' && r[|r| - 1] == '\'' && r[1..|r| - 1] == key
  {
    "'" + key + "'"
  }

  /** The degraded result of the `except` branch. */
  function Trouble(message: string): (r: QueryResult)
    ensures r.sources == []
    ensures |r.answer| == |TroublePrefix| + |message|
    ensures r.answer[..|TroublePrefix|] == TroublePrefix && r.answer[|TroublePrefix|..] == message
  {
    QueryResult(TroublePrefix + message, [])
  }

  method QueryKnowledgeBase(rule: TitleRule, response: Response) returns (result: QueryResult)
    ensures response.Raised? ==> result == Trouble(response.message)
    ensures response.Answered? && response.citations.None? ==> result == QueryResult(response.outputText, [])
    ensures response.Answered? && response.citations.Some? ==>
      var refs := Flatten(response.citations.value);
      match FirstWhere(refs, Malformed)
      case Some(i) => result == Trouble(KeyErrorMessage(LinkOf(refs[i].location).key))
      case None => result.answer == response.outputText && NumberedFrom(result.sources, rule, Filter(refs, Cited), 1)
  {
    match response
    case Raised(message) =>
      return Trouble(message);
    case Answered(answer, citations) =>
      if citations.None? {
        return QueryResult(answer, []);
      }
      var extracted := ExtractSources(rule, citations.value);
      var refs := Flatten(citations.value);
      SourcesFailOnFirstMissingKey(rule, refs, 1);
      match extracted
      case Err(key) =>
        return Trouble(KeyErrorMessage(key));
      case Ok(sources) =>
        SourcesAreNumberedCitedReferences(rule, refs, 1);
        return QueryResult(answer, sources);
  }
}

=== FILE: seqs.dfy ===
/** Generic sequence helpers: Python slicing, "first element such that", filtering. */
module Seqs {
  import opened Wrappers

  /** Python's slice `s[:n]`: the first `n` elements, or all of `s` when it is shorter. */
  function Prefix<T>(s: seq<T>, n: nat): (r: seq<T>)
    ensures |r| == if |s| < n then |s| else n
    ensures r == s[..|r|]
  {
    if |s| <= n then s else s[..n]
  }

  /** The last element of a non-empty sequence, Python's `s[-1]`. */
  function LastOf<T>(s: seq<T>): T
    requires |s| > 0
  {
    s[|s| - 1]
  }

  lemma LastOfCons<T>(x: T, rest: seq<T>)
    requires |rest| > 0
    ensures LastOf([x] + rest) == LastOf(rest)
  {
  }

  lemma SliceOfSuffix<T>(s: seq<T>, a: nat, b: nat, c: nat)
    requires a <= |s| && b <= c <= |s| - a
    ensures s[a..][b..c] == s[a + b..a + c]
    ensures s[a..][b..] == s[a + b..]
  {
  }

  lemma ConcatAssoc<T>(a: seq<T>, b: seq<T>, c: seq<T>)
    ensures a + (b + c) == (a + b) + c
  {
  }

  lemma SliceOfPrefix<T>(s: seq<T>, i: nat, j: nat, n: nat)
    requires j + n <= i <= |s|
    ensures s[..i][j..j + n] == s[j..j + n]
  {
  }

  /** The index of the first element satisfying `p`, the shape of a Python
      `for x in s: if p(x): return ...` loop. */
  function FirstWhere<T>(s: seq<T>, p: T -> bool): (r: Option<nat>)
    ensures r.None? <==> forall i :: 0 <= i < |s| ==> !p(s[i])
    ensures r.Some? ==> r.value < |s| && p(s[r.value])
    ensures r.Some? ==> forall i :: 0 <= i < r.value ==> !p(s[i])
  {
    if |s| == 0 then None
    else if p(s[0]) then Some(0)
    else match FirstWhere(s[1..], p)
      case None => None
      case Some(i) => Some(i + 1)
  }

  /** The first element satisfying `p` is found at its own index. */
  lemma FirstWhereAt<T>(s: seq<T>, p: T -> bool, j: nat)
    requires j < |s| && p(s[j])
    requires forall k :: 0 <= k < j ==> !p(s[k])
    ensures FirstWhere(s, p) == Some(j)
  {
  }

  /** Past a first element that fails `p`, the search goes on in the tail. */
  lemma FirstWhereTail<T>(s: seq<T>, p: T -> bool)
    requires |s| > 0 && !p(s[0])
    ensures FirstWhere(s, p).Some? <==> FirstWhere(s[1..], p).Some?
    ensures FirstWhere(s, p).Some? ==> FirstWhere(s, p).value == FirstWhere(s[1..], p).value + 1
  {
  }

  /** The elements of `s` that satisfy `p`, in their original order. */
  function Filter<T>(s: seq<T>, p: T -> bool): (r: seq<T>)
    ensures |r| <= |s|
    ensures forall i :: 0 <= i < |r| ==> p(r[i])
    ensures forall i :: 0 <= i < |s| && p(s[i]) ==> s[i] in r
  {
    if |s| == 0 then []
    else (if p(s[0]) then [s[0]] else []) + Filter(s[1..], p)
  }
}

=== FILE: wrappers.dfy ===
/** Failure-carrying datatypes shared by the rest of the model. */
module Wrappers {

  /** A value that may be absent, as a Python `None`. */
  datatype Option<+T> = None | Some(value: T)

  /** Either a computed value or the error that interrupted the computation. */
  datatype Result<+T, +E> = Ok(value: T) | Err(error: E)
}
